=== FILE: README.md ===
# Object utilities of metal.js, modelled in Dafny

This project models the `object` helper class of the metal.js core package
(`packages/metal/src/object/object.js`). The class has four static methods:

- `mixin(target, ...sources)` copies the own enumerable properties of each
  source, left to right, into the target. It returns the target.
- `getObjectByName(name, opt_obj)` splits a dotted name and reads each segment
  in turn, starting from `opt_obj` or, when that is falsy, from the global object.
- `map(obj, fn)` builds a new object with the same keys, in the same order,
  holding `fn(key, value)`.
- `shallowEqual(obj1, obj2)` compares two objects by key count and by strict
  equality of the values under `obj1`'s keys.

## How JavaScript is represented

- `JsObjects` (`js_objects.dfy`) holds the value and record types.
  - A value is undefined, null, a boolean, a number, a string or a reference to a record.
  - A record (`Obj`) is its own enumerable keys in enumeration order, plus a map from key to value.
  - Records live in a heap (`map<nat, Obj>`).
  - Datatype equality on values is JavaScript's `===`: references compare by identity, primitives by content.
- `OwnView` gives the own enumerable properties of a value, as `for…in` with `hasOwnProperty` and as `Object.keys` see them.
  - A record gives its own keys.
  - A string gives the decimal indices `"0"`, `"1"`, … with one-character strings as values.
  - A boolean or a number gives nothing.
- `Read` is `v[key]`. It throws `TypeError` on undefined and null.
- An operation that may throw returns `Outcome`: `Ok(value)` or `Throws(TypeError)`.
- An operation that mutates or allocates returns the new heap together with its result.

Modules follow the four methods: `Mixins` (`mixin.dfy`), `Names` (`names.dfy`),
`Mapping` (`mapping.dfy`) and `Shallow` (`shallow.dfy`).

The global object `window` is a parameter of `GetObjectByName`. The address
`map` allocates its result at is a parameter of `MapObject`, required to be unused.

## Model

| member | source | states |
|---|---|---|
| JsObjects.Obj.Put | packages/metal/src/object/object.js:25 | `output[k] = v`, with `__proto__` treated as a plain key (see "## Left out"): `k` then holds `v` and no other key changes. An existing key keeps its position; a new key is appended last. |
| JsObjects.Read | packages/metal/src/object/object.js:43 | Reading a property throws exactly when the value is undefined or null. On a record it yields the own value, or undefined for a missing key. |
| JsObjects.OwnView | packages/metal/src/object/object.js:22-24 | The enumerated own properties are valid records. A reference gives its record, a string has as many properties as characters, a boolean or number has none. |
| Mixins.CopyKeys | packages/metal/src/object/object.js:23-27 | The inner loop `output[nextKey] = source[nextKey]` over a source's keys keeps the target a valid record: no key listed twice, and the listed keys are exactly the owned ones. What it writes is stated by `CopyKeysEffect`. |
| Mixins.CopyKeysEffect | packages/metal/src/object/object.js:23-27 | After the inner loop, every copied key holds the source's value and every other key keeps its value. The key set grows by exactly the copied keys, and the old keys keep their order. |
| Mixins.Assign | packages/metal/src/object/object.js:22-28 | Copying one source: the result owns the union of both key sets. The source's values win on its keys, the target's values stay elsewhere, and the target's key order is kept. |
| Mixins.StepSource | packages/metal/src/object/object.js:20-28 | One outer iteration changes only the target record and keeps the heap well formed. An undefined or null source leaves the heap unchanged. |
| Mixins.MixinInto | packages/metal/src/object/object.js:19-29 | The outer loop over the sources keeps the heap well formed, allocates nothing and changes no record but the target. What the target ends up holding is stated by `MixinIntoIsFold` and `MixinLastSourceWins`. |
| Mixins.Mixin | packages/metal/src/object/object.js:12-31 | Throws `TypeError` exactly when the target is undefined or null. This assumes no source owns a key named `hasOwnProperty`, and the target is an extensible non-array record of writable data properties (see "## Left out"). Otherwise returns the target reference itself, keeps the heap well formed and changes no record but the target. |
| Mixins.MixinSkipsNullish | packages/metal/src/object/object.js:19-30 | When every source is undefined or null, the heap is unchanged and the target is returned. |
| Mixins.MixinIntoAppend | packages/metal/src/object/object.js:19-29 | Mixing in `a` followed by `b` equals mixing in `a`, then mixing in `b`. |
| Mixins.MixinSelfSourceIsSkipped | packages/metal/src/object/object.js:19-29 | Passing the target itself as a source, at any position, changes nothing. |
| Mixins.MixinIntoIsFold | packages/metal/src/object/object.js:19-29 | When no source is the target, the target ends up as the left-to-right fold of `Assign` over the sources' own properties. |
| Mixins.MixinObjsLastWins | packages/metal/src/object/object.js:19-29 | After the fold, a key owned by some source holds the value of the rightmost source owning it. Any other key keeps the target's value. |
| Mixins.MixinObjsKeys | packages/metal/src/object/object.js:19-29 | After the fold, the keys are the target's keys together with every source's own keys. |
| Mixins.MixinLastSourceWins | packages/metal/src/object/object.js:12-31 | With a non-aliased, extensible, non-array target of writable data properties, and no source owning `hasOwnProperty` (see "## Left out"), `mixin` succeeds. The last source owning a key wins, untouched keys keep their values, the key set is the union, and the target's keys keep their order. |
| Names.Split | packages/metal/src/object/object.js:42 | `name.split('.')` gives at least one piece, no piece contains a dot, and joining the pieces with dots gives the name back. |
| Names.SplitJoin | packages/metal/src/object/object.js:42 | Splitting the dotted join of dot-free pieces gives the pieces back. |
| Names.Resolve | packages/metal/src/object/object.js:43 | The `reduce` reading each segment from the value reached so far only ever reaches allocated values. When it throws is stated by `ResolveThrowsIff`, and how it splits over a path by `ResolveAppend`. |
| Names.Scope | packages/metal/src/object/object.js:41 | `opt_obj \|\| window`: the given scope when it is truthy, the global object otherwise. |
| Names.GetObjectByName | packages/metal/src/object/object.js:40-44 | `getObjectByName` resolves the dot-split name from `opt_obj` when it is truthy and from the global object otherwise, and what it returns is allocated. |
| Names.ResolveAppend | packages/metal/src/object/object.js:43 | The `reduce` over a path `p + q` resolves `p` first. If that throws, the whole throws; otherwise `q` is resolved from the value reached. |
| Names.ResolveSnoc | packages/metal/src/object/object.js:43 | The `reduce` step: resolving one more segment reads that segment from the value the earlier segments reach, and passes on a throw. |
| Names.GetObjectByNameLastSegment | packages/metal/src/object/object.js:40-44 | `getObjectByName` is the read of the last segment of `name.split('.')` from wherever the other segments lead, starting at `opt_obj` when truthy and at the global object otherwise. |
| Names.GetObjectByNameMissingLeaf | packages/metal/src/object/object.js:38-43 | When the other segments reach a record that lacks the final segment, the result is undefined. |
| Names.GetObjectByNameThrowsIff | packages/metal/src/object/object.js:40-44 | `getObjectByName` throws exactly when some proper prefix of the split name leads to undefined or null. |
| Names.ResolveThrowsIff | packages/metal/src/object/object.js:43 | The `reduce` throws exactly when some prefix shorter than the path leads to undefined or null. |
| Names.GetObjectByNameSamples | packages/metal/src/object/object.js:40-44 | On `{a: {b: {c: 42}}}`: `a.b.c` gives 42, `a.b.x` gives undefined, and `a.x.c` throws `TypeError`. |
| Names.ResolveOrUndefinedAgrees | packages/metal/src/object/object.js:38-43 | The lookup the documentation describes agrees with the code wherever the code returns. It gives undefined exactly where the code throws. |
| Names.LookupMissingIsUndefined | packages/metal/src/object/object.js:38 | With the documented semantics, once a prefix of the name leads to undefined, the lookup yields undefined ("if not found, undefined"). |
| Names.MissingIntermediateThrows | packages/metal/src/object/object.js:38-43 | On `{a: {b: {c: 42}}}`, the prefix `a.x` is not found, yet `getObjectByName('a.x.c')` throws. The documented lookup gives undefined. |
| Mapping.MapValues | packages/metal/src/object/object.js:53-60 | The mapped record has exactly the input's key sequence and key set. Each key `k` holds `fn(k, obj[k])`. |
| Mapping.MapLoop | packages/metal/src/object/object.js:54-59 | The loop over `Object.keys(obj)` builds a record with the input's key sequence and the mapped values. |
| Mapping.MapValuesIdentity | packages/metal/src/object/object.js:53-60 | Mapping with `(k, v) => v` gives an equal record. |
| Mapping.MapValuesCompose | packages/metal/src/object/object.js:53-60 | Mapping with `f` and then `g` equals mapping once with `(k, v) => g(k, f(k, v))`. |
| Mapping.MapObject | packages/metal/src/object/object.js:53-60 | Throws `TypeError` exactly when `obj` is undefined or null. Otherwise returns a reference to a new valid record that lists and owns exactly the same keys, in the same order (`__proto__` treated as a plain key, see "## Left out"), with values `fn(k, obj[k])`; every existing record, the input included, is unchanged. |
| Mapping.MapObjectKeepsWf | packages/metal/src/object/object.js:53-60 | When `fn` returns only allocated values, the heap after `map` is well formed. |
| Shallow.AllMatch | packages/metal/src/object/object.js:78-82 | The comparison loop returns true exactly when every key of the list reads the same (`===`) in both records, a missing key reading as undefined. |
| Shallow.ShallowEqual | packages/metal/src/object/object.js:67-84 | Identical arguments give true. Otherwise an undefined or null argument throws `TypeError`. Otherwise the result is true exactly when both have the same number of own keys and every own key of `obj1` holds a `===` value in `obj2`. |
| Shallow.ShallowEqualLoop | packages/metal/src/object/object.js:67-84 | The early-exit loop over `obj1`'s keys decides the same relation as `ShallowEqual`. |
| Shallow.ShallowEqualSameKeys | packages/metal/src/object/object.js:72-83 | When `obj1` has no undefined values, a true result means both own exactly the same keys. |
| Shallow.ShallowEqualSymmetric | packages/metal/src/object/object.js:67-84 | Without undefined values on either side, swapping the arguments gives the same result. |
| Shallow.ShallowEqualAsymmetric | packages/metal/src/object/object.js:72-83 | `{a: undefined}` against `{b: 1}` is true, and the reverse order is false. |
| Shallow.ShallowEqualByIdentity | packages/metal/src/object/object.js:79 | `{a: r}` and `{a: r'}` differ when `r` and `r'` are distinct records, even with equal contents. |

## Left out

- The global object `window` is not modelled; `GetObjectByName` takes it as a parameter.
- Mixins.Mixin: requires the target to be undefined, null or a reference. `Object(target)` boxing a boolean, number or string target into a fresh wrapper object is not modelled. The model also assumes that `source.hasOwnProperty` is the inherited method. In JavaScript, a source that owns a key named `hasOwnProperty` (as in `mixin({}, {hasOwnProperty: 1})`) makes the call at line 24 throw `TypeError`, and the writes from earlier sources stay in the target. The model has no function values: it copies that key like any other and returns `Ok`. So `Mixin`'s `Ok` result does not hold in JavaScript for such a source. Every property of a record is modelled as a writable own data property, every record as extensible, and no record as an array. In JavaScript the module runs in strict mode (line 1), so the write at line 25 throws `TypeError` when the target is frozen (`mixin(Object.freeze({a: 1}), {a: 2})`, even with an equal value), when the target is non-extensible and the key is new, or when the target's property has a getter and no setter. A setter on the target runs its own code instead of storing the value. An array target receiving `length` drops its higher indices (`mixin([1, 2, 3], {length: 1})` deletes keys `"1"` and `"2"`). In all these cases the model returns `Ok` and stores the value as a plain own key.
- Mixins.MixinLastSourceWins: requires that no source is the target. A self-source is covered separately by `MixinSelfSourceIsSkipped`. Its `Ok` result, its last-source-wins values and its "untouched keys keep their values" also assume three things: no source owns a key named `hasOwnProperty`, the target is an extensible non-array record, and its properties are all writable data properties. See `Mixins.Mixin` above for what JavaScript does otherwise (a strict-mode `TypeError`, or, for an array's `length`, dropped keys).
- Inherited and non-enumerable properties are not modelled: prototype chains, a string's `length`, methods. `OwnView` has only own enumerable properties, so reading `length` through `getObjectByName` gives undefined here.
- The order JavaScript imposes on integer-like keys (ascending, before other keys) is not modelled. Keys enumerate in insertion order.
- Numbers are mathematical integers. Floating point, `NaN` (for which `===` is not reflexive) and signed zero are not modelled.
- Strings are sequences of characters, not UTF-16 code units. String indices are per character.
- `fn` in `map` is a pure total function; side effects of `fn` and exceptions it throws are not modelled.
- Mapping.MapObject: the address of the new object is a parameter rather than chosen by an allocator.
- Mapping.MapObject: an input that owns a key named `__proto__` (as `JSON.parse('{"__proto__":1}')` does) gives, in JavaScript, a result without that key. The write runs the prototype setter, not an own-key store. The model keeps the key, so `MapObject`'s "same keys" promise holds only for inputs without an own `__proto__` key.
- JsObjects.Obj.Put: a write `o[k] = v` always stores an own key. In JavaScript, when `o` does not already own a `__proto__` property, `k == "__proto__"` runs the inherited setter instead: it replaces the prototype when `v` is an object or null, does nothing otherwise, and creates no own key. This affects `output[nextKey] = …` in `mixin` (line 25) and `mappedObj[keys[i]] = …` in `map` (line 57) for such a key. An `o` that already owns `__proto__` (one built by `JSON.parse('{"__proto__":1}')`, say) has that own property updated in place, as `Put` does. In `map` the written record is always a fresh `{}`, so there the setter always runs.
- The message text of the thrown `TypeError` is not modelled; only that a `TypeError` is thrown.
- `isDefAndNotNull` comes from another file and is not part of this model. It is modelled as the predicate `IsDefAndNotNull`: neither undefined nor null.
- `Object.keys` and property reads on primitives are modelled only through `OwnView`. A string exposes its indices, and booleans and numbers expose nothing.

## Findings

`getObjectByName` follows the code, which throws. The documentation comment's
promise is proved of the corrected definition `LookupByName`, built on
`ResolveOrUndefined`.

| source | as written | input that shows it | evidently intended | confidence | as-written member | corrected member |
|---|---|---|---|---|---|---|
| packages/metal/src/object/object.js:43 | Each segment is read from the previous value without a check. After a missing intermediate segment, the next read is on undefined and throws `TypeError`. | `getObjectByName('a.x.c', {a: {b: {c: 42}}})` | undefined, as the documentation comment at line 38 promises for a name that is not found | not executed; high that the code throws, medium that undefined was intended | Names.MissingIntermediateThrows | Names.LookupMissingIsUndefined |

=== FILE: js_objects.dfy ===
/**
  The JavaScript values and records the object utilities operate on.

  A record is an `Obj`: its own enumerable keys in enumeration order plus the
  map from key to value. Records live in a `Heap` and are reached through
  `Ref(id)` values, so that Dafny's datatype equality on `Value` is JavaScript's
  strict equality `===`: references compare by identity, primitives by content.
*/
module JsObjects {

  /** JavaScript values. Numbers are modelled as integers. */
  datatype Value =
    | Undefined
    | Null
    | Bool(b: bool)
    | Num(n: int)
    | Str(s: string)
    | Ref(id: nat)

  /** The one error the utilities raise. */
  datatype JsError = TypeError

  /** A call either returns a value or throws. */
  datatype Outcome<+T> = Ok(value: T) | Throws(error: JsError)

  datatype Option<+T> = None | Some(value: T)

  /** The `isDefAndNotNull` helper of the core package. */
  predicate IsDefAndNotNull(v: Value) {
    !v.Undefined? && !v.Null?
  }

  /** JavaScript truthiness, as used by `a || b`. */
  predicate Truthy(v: Value) {
    match v
    case Undefined => false
    case Null => false
    case Bool(b) => b
    case Num(n) => n != 0
    case Str(s) => s != ""
    case Ref(_) => true
  }

  /** A record: own enumerable keys in enumeration order, and their values. */
  datatype Obj = Obj(keys: seq<string>, vals: map<string, Value>) {

    /** The key sequence has no repetition and lists exactly the keys of the map. */
    predicate Valid() {
      && (forall i, j :: 0 <= i < j < |keys| ==> keys[i] != keys[j])
      && (forall k {:trigger k in vals} :: k in vals ==> k in keys)
      && (forall i :: 0 <= i < |keys| ==> keys[i] in vals)
    }

    /** `obj[k]`: a key that is not an own property reads as undefined. */
    function Get(k: string): Value {
      if k in vals then vals[k] else Undefined
    }

    /** `obj[k] = v`: an existing key keeps its position, a new key goes last. */
    function Put(k: string, v: Value): (r: Obj)
      requires Valid()
      ensures r.Valid()
      ensures r.Get(k) == v
      ensures forall k' :: k' != k ==> r.Get(k') == Get(k')
      ensures r.vals.Keys == vals.Keys + {k}
      ensures keys <= r.keys
      ensures k in vals ==> r.keys == keys
      ensures k !in vals ==> r.keys == keys + [k]
    {
      if k in vals then Obj(keys, vals[k := v]) else Obj(keys + [k], vals[k := v])
    }
  }

  /** Valid records listing the same keys own the same keys. */
  lemma SameKeysSameDomain(a: Obj, b: Obj)
    requires a.Valid() && b.Valid() && a.keys == b.keys
    ensures a.vals.Keys == b.vals.Keys
  {
    forall k | k in a.vals
      ensures k in b.vals
    {
      assert k in a.keys;
    }
    forall k | k in b.vals
      ensures k in a.vals
    {
      assert k in b.keys;
    }
  }

  /** A valid record has as many own keys as its key sequence has entries. */
  lemma {:induction false} KeyCount(ks: seq<string>, s: set<string>)
    requires forall i, j :: 0 <= i < j < |ks| ==> ks[i] != ks[j]
    requires forall k :: k in s <==> k in ks
    ensures |s| == |ks|
    decreases |ks|
  {
    if ks != [] {
      var init, last := ks[..|ks| - 1], ks[|ks| - 1];
      assert ks == init + [last];
      forall k
        ensures k in s - {last} <==> k in init
      {
        if k in init {
          var i :| 0 <= i < |init| && init[i] == k;
          assert ks[i] == k;
        }
      }
      KeyCount(init, s - {last});
    }
  }

  /** The one-property record `{k: v}`. */
  lemma Singleton(k: string, v: Value)
    ensures var o := Obj([k], map[k := v]);
      o.Valid() && o.vals.Keys == {k} && o.Get(k) == v
  {
  }

  /** `{}` */
  const Empty: Obj := Obj([], map[])

  type Heap = map<nat, Obj>

  /** A value that is a reference points at an allocated record. */
  predicate Closed(h: Heap, v: Value) {
    v.Ref? ==> v.id in h
  }

  predicate AllClosed(h: Heap, vs: seq<Value>) {
    forall i :: 0 <= i < |vs| ==> Closed(h, vs[i])
  }

  /** Every record is valid and refers only to allocated records. */
  predicate WfHeap(h: Heap) {
    forall id :: id in h ==>
      && h[id].Valid()
      && (forall k :: k in h[id].vals ==> Closed(h, h[id].vals[k]))
  }

  /** Storing a valid record whose values are allocated keeps the heap well formed. */
  lemma StoreKeepsWf(h: Heap, t: nat, o: Obj)
    requires WfHeap(h) && o.Valid()
    requires forall k :: k in o.vals ==> Closed(h, o.vals[k])
    ensures WfHeap(h[t := o])
  {
    var h' := h[t := o];
    forall id | id in h'
      ensures h'[id].Valid()
      ensures forall k :: k in h'[id].vals ==> Closed(h', h'[id].vals[k])
    {
      if id != t {
        assert h'[id] == h[id];
      }
    }
  }

  function DigitChar(d: nat): char
    requires d < 10
  {
    "0123456789"[d]
  }

  /** The canonical decimal property name of array index `n`. */
  function IndexKey(n: nat): (k: string)
    ensures 1 <= |k|
    ensures n < 10 <==> |k| == 1
  {
    if n < 10 then [DigitChar(n)] else IndexKey(n / 10) + [DigitChar(n % 10)]
  }

  lemma {:induction false} IndexKeyInjective(a: nat, b: nat)
    requires IndexKey(a) == IndexKey(b)
    ensures a == b
  {
    var ka, kb := IndexKey(a), IndexKey(b);
    if a < 10 && b < 10 {
      assert "0123456789"[a] == ka[0] == kb[0] == "0123456789"[b];
    } else if a >= 10 && b >= 10 {
      var pa, pb := IndexKey(a / 10), IndexKey(b / 10);
      assert ka[..|ka| - 1] == pa && kb[..|kb| - 1] == pb;
      IndexKeyInjective(a / 10, b / 10);
      assert "0123456789"[a % 10] == ka[|ka| - 1] == kb[|kb| - 1] == "0123456789"[b % 10];
    }
  }

  /** The own enumerable properties of a string primitive, indices `0 .. n-1`. */
  function StringView(s: string, n: nat): (o: Obj)
    requires n <= |s|
    ensures o.Valid()
    ensures |o.keys| == n
    ensures forall i :: 0 <= i < n ==> o.keys[i] == IndexKey(i)
    ensures forall i :: 0 <= i < n ==> o.Get(IndexKey(i)) == Str([s[i]])
    ensures forall k :: k in o.vals ==> o.vals[k].Str?
  {
    if n == 0 then Empty
    else
      var prev := StringView(s, n - 1);
      StringViewStep(s, n, prev);
      prev.Put(IndexKey(n - 1), Str([s[n - 1]]))
  }

  /** Adding index `n - 1` to the view of the first `n - 1` characters. */
  lemma StringViewStep(s: string, n: nat, prev: Obj)
    requires 0 < n <= |s|
    requires prev.Valid() && |prev.keys| == n - 1
    requires forall i :: 0 <= i < n - 1 ==> prev.keys[i] == IndexKey(i)
    requires forall i :: 0 <= i < n - 1 ==> prev.Get(IndexKey(i)) == Str([s[i]])
    ensures IndexKey(n - 1) !in prev.vals
    ensures var o := prev.Put(IndexKey(n - 1), Str([s[n - 1]]));
      && (forall i :: 0 <= i < n ==> o.keys[i] == IndexKey(i))
      && (forall i :: 0 <= i < n ==> o.Get(IndexKey(i)) == Str([s[i]]))
  {
    var k := IndexKey(n - 1);
    IndexKeysDistinct(n - 1);
    assert k !in prev.vals by {
      assert forall i :: 0 <= i < n - 1 ==> prev.keys[i] != k;
    }
    var o := prev.Put(k, Str([s[n - 1]]));
    assert o.keys == prev.keys + [k];
    forall i | 0 <= i < n
      ensures o.keys[i] == IndexKey(i)
    {
      if i < n - 1 {
        assert o.keys[i] == prev.keys[i];
      }
    }
    forall i | 0 <= i < n
      ensures o.Get(IndexKey(i)) == Str([s[i]])
    {
      if i < n - 1 {
        assert IndexKey(i) != k;
      }
    }
  }

  /** Index `n` differs from every smaller index as a property name. */
  lemma IndexKeysDistinct(n: nat)
    ensures forall i :: 0 <= i < n ==> IndexKey(i) != IndexKey(n)
  {
    forall i | 0 <= i < n
      ensures IndexKey(i) != IndexKey(n)
    {
      if IndexKey(i) == IndexKey(n) {
        IndexKeyInjective(i, n);
      }
    }
  }

  /**
    The own enumerable properties of a value, as `for...in` filtered by
    `hasOwnProperty` and `Object.keys` see them: a record's own keys, a
    string's indices, and nothing for a boolean or a number.
  */
  function OwnView(h: Heap, v: Value): (o: Obj)
    requires WfHeap(h) && Closed(h, v)
    requires IsDefAndNotNull(v)
    ensures o.Valid()
    ensures forall k :: k in o.vals ==> Closed(h, o.vals[k])
    ensures v.Ref? ==> o == h[v.id]
    ensures v.Bool? || v.Num? ==> o == Empty
    ensures v.Str? ==> |o.keys| == |v.s|
  {
    match v
    case Ref(id) => h[id]
    case Str(s) => StringView(s, |s|)
    case _ => Empty
  }

  /** `v[key]`: throws on undefined and null, reads an own property otherwise. */
  function Read(h: Heap, v: Value, key: string): (r: Outcome<Value>)
    requires WfHeap(h) && Closed(h, v)
    ensures r.Throws? <==> !IsDefAndNotNull(v)
    ensures r.Ok? ==> Closed(h, r.value)
    ensures v.Ref? ==> r == Ok(h[v.id].Get(key))
  {
    if !IsDefAndNotNull(v) then Throws(TypeError) else Ok(OwnView(h, v).Get(key))
  }

  /** The heap after a call, and the value the call returned. */
  datatype State = State(heap: Heap, result: Value)
}

=== FILE: mapping.dfy ===
/**
  `object.map(obj, fn)`: a new record with the keys of `obj`, in the same
  order, each holding `fn(key, value)`. The input record is not modified.
*/
module Mapping {
  import opened JsObjects

  /** The record built by the first `n` iterations of the loop. */
  function MapPrefix(o: Obj, fn: (string, Value) -> Value, n: nat): (r: Obj)
    requires o.Valid() && n <= |o.keys|
    ensures r.Valid()
    ensures r.keys <= o.keys && |r.keys| == n
    ensures forall k :: k in r.vals ==> r.vals[k] == fn(k, o.Get(k))
    decreases n
  {
    if n == 0 then Empty
    else
      var prev := MapPrefix(o, fn, n - 1);
      MapPrefixStep(o, fn, n, prev);
      prev.Put(o.keys[n - 1], fn(o.keys[n - 1], o.Get(o.keys[n - 1])))
  }

  /** One more iteration appends the next key, which the record built so far lacks. */
  lemma MapPrefixStep(o: Obj, fn: (string, Value) -> Value, n: nat, prev: Obj)
    requires o.Valid() && 0 < n <= |o.keys|
    requires prev.Valid() && prev.keys <= o.keys && |prev.keys| == n - 1
    requires forall k :: k in prev.vals ==> prev.vals[k] == fn(k, o.Get(k))
    ensures var k := o.keys[n - 1];
      var r := prev.Put(k, fn(k, o.Get(k)));
      && r.keys <= o.keys && |r.keys| == n
      && forall k' :: k' in r.vals ==> r.vals[k'] == fn(k', o.Get(k'))
  {
    var k := o.keys[n - 1];
    NextKeyIsNew(o, n, prev);
    var r := prev.Put(k, fn(k, o.Get(k)));
    assert r.keys == prev.keys + [k];
    PutKeepsMapped(o, fn, prev, k);
  }

  /** The key of iteration `n` is not among those of the earlier iterations. */
  lemma NextKeyIsNew(o: Obj, n: nat, prev: Obj)
    requires o.Valid() && 0 < n <= |o.keys|
    requires prev.Valid() && prev.keys <= o.keys && |prev.keys| == n - 1
    ensures o.keys[n - 1] !in prev.vals
  {
    var k := o.keys[n - 1];
    forall i | 0 <= i < n - 1
      ensures prev.keys[i] != k
    {
      assert prev.keys[i] == o.keys[i];
    }
  }

  /** Storing the mapped value of one more key keeps every value mapped. */
  lemma PutKeepsMapped(o: Obj, fn: (string, Value) -> Value, prev: Obj, k: string)
    requires prev.Valid()
    requires forall k :: k in prev.vals ==> prev.vals[k] == fn(k, o.Get(k))
    ensures var r := prev.Put(k, fn(k, o.Get(k)));
      forall k' :: k' in r.vals ==> r.vals[k'] == fn(k', o.Get(k'))
  {
    var r := prev.Put(k, fn(k, o.Get(k)));
    forall k' | k' in r.vals
      ensures r.vals[k'] == fn(k', o.Get(k'))
    {
      assert r.vals[k'] == r.Get(k');
      if k' != k {
        assert r.Get(k') == prev.Get(k');
      }
    }
  }

  /** The mapped record: same key sequence, each value replaced by `fn(key, value)`. */
  function MapValues(o: Obj, fn: (string, Value) -> Value): (r: Obj)
    requires o.Valid()
    ensures r.Valid()
    ensures r.keys == o.keys
    ensures r.vals.Keys == o.vals.Keys
    ensures forall k :: k in o.vals ==> r.vals[k] == fn(k, o.vals[k])
  {
    MapPrefixComplete(o, fn);
    MapPrefix(o, fn, |o.keys|)
  }

  /** After the last iteration every key of the input holds its mapped value. */
  lemma MapPrefixComplete(o: Obj, fn: (string, Value) -> Value)
    requires o.Valid()
    ensures var r := MapPrefix(o, fn, |o.keys|);
      && r.Valid() && r.keys == o.keys && r.vals.Keys == o.vals.Keys
      && forall k :: k in o.vals ==> r.vals[k] == fn(k, o.vals[k])
  {
    var r := MapPrefix(o, fn, |o.keys|);
    assert r.keys == o.keys;
    SameKeysSameDomain(r, o);
    forall k | k in o.vals
      ensures r.vals[k] == fn(k, o.vals[k])
    {
      assert k in r.vals;
      assert o.Get(k) == o.vals[k];
    }
  }

  /** The loop of `object.map` over `Object.keys(obj)`, as `object.map` writes it. */
  method MapLoop(o: Obj, fn: (string, Value) -> Value) returns (r: Obj)
    requires o.Valid()
    ensures r.Valid() && r.keys == o.keys
    ensures forall k :: k in o.vals ==> k in r.vals && r.vals[k] == fn(k, o.vals[k])
  {
    r := Empty;
    var i := 0;
    while i < |o.keys|
      invariant 0 <= i <= |o.keys|
      invariant r == MapPrefix(o, fn, i)
    {
      var k := o.keys[i];
      r := r.Put(k, fn(k, o.Get(k)));
      i := i + 1;
    }
    MapPrefixComplete(o, fn);
  }

  /** Two records with the same key sequence and the same values are the same record. */
  lemma ObjExt(a: Obj, b: Obj)
    requires a.Valid() && b.Valid() && a.keys == b.keys
    requires forall k :: k in a.vals ==> a.vals[k] == b.vals[k]
    ensures a == b
  {
    SameKeysSameDomain(a, b);
    assert a.vals == b.vals;
  }

  /** Mapping with the function that returns the value unchanged gives back an equal record. */
  lemma MapValuesIdentity(o: Obj)
    requires o.Valid()
    ensures MapValues(o, (k, v) => v) == o
  {
    ObjExt(MapValues(o, (k, v) => v), o);
  }

  /** Mapping twice is mapping once with the composed function. */
  lemma MapValuesCompose(o: Obj, f: (string, Value) -> Value, g: (string, Value) -> Value)
    requires o.Valid()
    ensures MapValues(MapValues(o, f), g) == MapValues(o, (k, v) => g(k, f(k, v)))
  {
    var once := MapValues(o, f);
    ObjExt(MapValues(once, g), MapValues(o, (k, v) => g(k, f(k, v))));
  }

  /**
    `object.map(obj, fn)` on the heap. `Object.keys` throws on undefined and
    null; otherwise a new record is stored at the unused address `addr`, and
    every record already in the heap, the input included, is left as it was.
  */
  function MapObject(h: Heap, v: Value, fn: (string, Value) -> Value, addr: nat): (r: Outcome<State>)
    requires WfHeap(h) && Closed(h, v) && addr !in h
    ensures r.Throws? <==> !IsDefAndNotNull(v)
    ensures r.Ok? ==> r.value.result == Ref(addr)
    ensures r.Ok? ==> r.value.heap.Keys == h.Keys + {addr}
    ensures r.Ok? ==> forall id :: id in h ==> r.value.heap[id] == h[id]
    ensures r.Ok? ==>
      var src, out := OwnView(h, v), r.value.heap[addr];
      && out.Valid()
      && out.keys == src.keys
      && out.vals.Keys == src.vals.Keys
      && forall k :: k in src.vals ==> out.Get(k) == fn(k, src.vals[k])
  {
    if !IsDefAndNotNull(v) then Throws(TypeError)
    else Ok(State(h[addr := MapValues(OwnView(h, v), fn)], Ref(addr)))
  }

  /** When `fn` yields only allocated values, the heap stays well formed. */
  lemma MapObjectKeepsWf(h: Heap, v: Value, fn: (string, Value) -> Value, addr: nat)
    requires WfHeap(h) && Closed(h, v) && addr !in h && IsDefAndNotNull(v)
    requires forall k, x :: Closed(h, fn(k, x))
    ensures WfHeap(MapObject(h, v, fn, addr).value.heap)
  {
    StoreKeepsWf(h, addr, MapValues(OwnView(h, v), fn));
  }
}

=== FILE: mixin.dfy ===
/**
  `object.mixin(target, ...sources)`: copies the own properties of each source,
  left to right, into the target record, and returns the target reference.

  The record-level fold (`Assign`, `MixinObjs`) states what the result holds;
  the heap-level functions (`StepSource`, `MixinInto`, `Mixin`) follow the
  loops of `object.mixin`, reading each source from the heap as it is at that
  point, so that a source that is the target itself is handled as JavaScript
  handles it. A source owning a key named `hasOwnProperty` is copied like any
  other; JavaScript would throw on it at the ownership check.
*/
module Mixins {
  import opened JsObjects

  /** The inner loop: `output[k] = src[k]` for each key of `ks`, in order. */
  function CopyKeys(o: Obj, src: Obj, ks: seq<string>): (r: Obj)
    requires o.Valid()
    ensures r.Valid()
    decreases |ks|
  {
    if ks == [] then o else CopyKeys(o.Put(ks[0], src.Get(ks[0])), src, ks[1..])
  }

  /**
    After the inner loop the copied keys hold the source's values, every other
    key keeps its value, and the existing keys keep their order.
  */
  lemma {:induction false} CopyKeysEffect(o: Obj, src: Obj, ks: seq<string>)
    requires o.Valid()
    ensures var r := CopyKeys(o, src, ks);
      && (forall k :: k in r.vals <==> k in o.vals || k in ks)
      && (forall k :: k in ks ==> r.Get(k) == src.Get(k))
      && (forall k :: k !in ks ==> r.Get(k) == o.Get(k))
      && o.keys <= r.keys
    decreases |ks|
  {
    if ks != [] {
      var k0 := ks[0];
      var o' := o.Put(k0, src.Get(k0));
      CopyKeysEffect(o', src, ks[1..]);
      assert forall k :: k in ks <==> k == k0 || k in ks[1..];
    }
  }

  /** Copies every own property of `src` into `o`, in `src`'s enumeration order. */
  function Assign(o: Obj, src: Obj): (r: Obj)
    requires o.Valid() && src.Valid()
    ensures r.Valid()
    ensures r.vals.Keys == o.vals.Keys + src.vals.Keys
    ensures forall k :: k in src.vals ==> r.Get(k) == src.vals[k]
    ensures forall k :: k !in src.vals ==> r.Get(k) == o.Get(k)
    ensures o.keys <= r.keys
  {
    CopyKeysEffect(o, src, src.keys);
    CopyKeys(o, src, src.keys)
  }

  /** The keys owned by at least one of `srcs`. */
  function UnionKeys(srcs: seq<Obj>): (ks: set<string>)
    ensures forall k :: k in ks <==> exists j :: 0 <= j < |srcs| && k in srcs[j].vals
  {
    if srcs == [] then {}
    else
      var last := |srcs| - 1;
      var ks := UnionKeys(srcs[..last]) + srcs[last].vals.Keys;
      assert forall j :: 0 <= j < last ==> srcs[..last][j] == srcs[j];
      ks
  }

  /** The index of the rightmost of `srcs` that owns `k`, if any. */
  function LastOwner(srcs: seq<Obj>, k: string): (r: Option<nat>)
    ensures r.Some? ==> r.value < |srcs| && k in srcs[r.value].vals
    ensures r.Some? ==> forall j :: r.value < j < |srcs| ==> k !in srcs[j].vals
    ensures r.None? ==> forall j :: 0 <= j < |srcs| ==> k !in srcs[j].vals
  {
    if srcs == [] then None
    else if k in srcs[|srcs| - 1].vals then Some(|srcs| - 1)
    else
      var r := LastOwner(srcs[..|srcs| - 1], k);
      assert forall j :: 0 <= j < |srcs| - 1 ==> srcs[..|srcs| - 1][j] == srcs[j];
      r
  }

  predicate AllValid(srcs: seq<Obj>) {
    forall i :: 0 <= i < |srcs| ==> srcs[i].Valid()
  }

  /** The outer loop on records: assign each source in turn, left to right. */
  function MixinObjs(o: Obj, srcs: seq<Obj>): (r: Obj)
    requires o.Valid() && AllValid(srcs)
    ensures r.Valid()
    ensures o.keys <= r.keys
    decreases |srcs|
  {
    if srcs == [] then o
    else
      AllValidInit(srcs);
      Assign(MixinObjs(o, srcs[..|srcs| - 1]), srcs[|srcs| - 1])
  }

  /**
    After the fold, a key owned by some source holds the value of the
    rightmost source that owns it; any other key keeps the target's value.
  */
  lemma {:induction false} MixinObjsLastWins(o: Obj, srcs: seq<Obj>, k: string)
    requires o.Valid() && AllValid(srcs)
    ensures MixinObjs(o, srcs).Get(k) ==
      match LastOwner(srcs, k)
      case Some(j) => srcs[j].vals[k]
      case None => o.Get(k)
    decreases |srcs|
  {
    if srcs != [] {
      var init := srcs[..|srcs| - 1];
      AllValidInit(srcs);
      if k !in srcs[|srcs| - 1].vals {
        MixinObjsLastWins(o, init, k);
        LastOwnerInit(srcs, k);
      }
    }
  }

  /** When the last source lacks `k`, its rightmost owner is found among the others. */
  lemma LastOwnerInit(srcs: seq<Obj>, k: string)
    requires srcs != [] && k !in srcs[|srcs| - 1].vals
    ensures LastOwner(srcs, k) == LastOwner(srcs[..|srcs| - 1], k)
    ensures LastOwner(srcs, k).Some? ==> srcs[..|srcs| - 1][LastOwner(srcs, k).value] == srcs[LastOwner(srcs, k).value]
  {
  }

  /** After the fold, the keys are the target's keys and every source's keys. */
  lemma {:induction false} MixinObjsKeys(o: Obj, srcs: seq<Obj>)
    requires o.Valid() && AllValid(srcs)
    ensures MixinObjs(o, srcs).vals.Keys == o.vals.Keys + UnionKeys(srcs)
    decreases |srcs|
  {
    if srcs != [] {
      AllValidInit(srcs);
      MixinObjsKeys(o, srcs[..|srcs| - 1]);
    }
  }

  lemma AllValidInit(srcs: seq<Obj>)
    requires AllValid(srcs) && srcs != []
    ensures AllValid(srcs[..|srcs| - 1])
  {
    assert forall i :: 0 <= i < |srcs| - 1 ==> srcs[..|srcs| - 1][i] == srcs[i];
  }

  /** One iteration of the outer loop of `mixin`; undefined and null sources are skipped. */
  function StepSource(h: Heap, t: nat, src: Value): (h': Heap)
    requires WfHeap(h) && t in h && Closed(h, src)
    ensures WfHeap(h') && h'.Keys == h.Keys
    ensures forall id :: id in h && id != t ==> h'[id] == h[id]
    ensures !IsDefAndNotNull(src) ==> h' == h
  {
    if !IsDefAndNotNull(src) then h
    else
      var v := OwnView(h, src);
      var o := Assign(h[t], v);
      forall k | k in o.vals
        ensures Closed(h, o.vals[k])
      {
        assert o.vals[k] == o.Get(k);
        if k in v.vals {
          assert o.Get(k) == v.vals[k];
        } else {
          assert o.Get(k) == h[t].Get(k);
        }
      }
      StoreKeepsWf(h, t, o);
      h[t := o]
  }

  /** The outer loop of `mixin` on the heap, over `srcs` left to right. */
  function MixinInto(h: Heap, t: nat, srcs: seq<Value>): (h': Heap)
    requires WfHeap(h) && t in h && AllClosed(h, srcs)
    ensures WfHeap(h') && h'.Keys == h.Keys
    ensures forall id :: id in h && id != t ==> h'[id] == h[id]
    decreases |srcs|
  {
    if srcs == [] then h
    else
      AllClosedInit(h, srcs);
      StepSource(MixinInto(h, t, srcs[..|srcs| - 1]), t, srcs[|srcs| - 1])
  }

  /**
    `object.mixin(target, ...sources)`. An undefined or null target throws a
    `TypeError`; otherwise the target record is updated in place and the target
    reference itself is returned. Nothing else in the heap changes.
  */
  function Mixin(h: Heap, target: Value, sources: seq<Value>): (r: Outcome<State>)
    requires WfHeap(h) && Closed(h, target) && AllClosed(h, sources)
    requires target.Undefined? || target.Null? || target.Ref?
    ensures r.Throws? <==> !IsDefAndNotNull(target)
    ensures r.Ok? ==> r.value.result == target
    ensures r.Ok? ==> WfHeap(r.value.heap) && r.value.heap.Keys == h.Keys
    ensures r.Ok? ==> forall id :: id in h && id != target.id ==> r.value.heap[id] == h[id]
  {
    if !IsDefAndNotNull(target) then Throws(TypeError)
    else Ok(State(MixinInto(h, target.id, sources), target))
  }

  /** With no sources, or only undefined and null ones, the heap is unchanged. */
  lemma {:induction false} MixinSkipsNullish(h: Heap, target: Value, sources: seq<Value>)
    requires WfHeap(h) && Closed(h, target) && AllClosed(h, sources)
    requires target.Ref?
    requires forall i :: 0 <= i < |sources| ==> !IsDefAndNotNull(sources[i])
    ensures Mixin(h, target, sources) == Ok(State(h, target))
  {
    MixinIntoSkipsNullish(h, target.id, sources);
  }

  lemma {:induction false} MixinIntoSkipsNullish(h: Heap, t: nat, srcs: seq<Value>)
    requires WfHeap(h) && t in h && AllClosed(h, srcs)
    requires forall i :: 0 <= i < |srcs| ==> !IsDefAndNotNull(srcs[i])
    ensures MixinInto(h, t, srcs) == h
    decreases |srcs|
  {
    if srcs != [] {
      AllClosedInit(h, srcs);
      var init := srcs[..|srcs| - 1];
      assert forall i :: 0 <= i < |init| ==> !IsDefAndNotNull(init[i]) by {
        assert forall i :: 0 <= i < |init| ==> init[i] == srcs[i];
      }
      MixinIntoSkipsNullish(h, t, init);
    }
  }

  /** Running the loop over `a + b` is running it over `a`, then over `b`. */
  lemma {:induction false} MixinIntoAppend(h: Heap, t: nat, a: seq<Value>, b: seq<Value>)
    requires WfHeap(h) && t in h && AllClosed(h, a + b)
    ensures AllClosed(h, a) && AllClosed(h, b)
    ensures MixinInto(h, t, a + b) == MixinInto(MixinInto(h, t, a), t, b)
    decreases |b|
  {
    AllClosedSplit(h, a, b);
    if b == [] {
      assert a + b == a;
    } else {
      var init := b[..|b| - 1];
      InitOfAppend(a, b);
      AllClosedInit(h, a + b);
      MixinIntoAppend(h, t, a, init);
    }
  }

  lemma AllClosedSplit(h: Heap, a: seq<Value>, b: seq<Value>)
    requires AllClosed(h, a + b)
    ensures AllClosed(h, a) && AllClosed(h, b)
  {
    assert forall i :: 0 <= i < |a| ==> (a + b)[i] == a[i];
    assert forall i :: 0 <= i < |b| ==> (a + b)[|a| + i] == b[i];
  }

  lemma AllClosedInit(h: Heap, s: seq<Value>)
    requires AllClosed(h, s) && s != []
    ensures AllClosed(h, s[..|s| - 1])
  {
    assert forall i :: 0 <= i < |s| - 1 ==> s[..|s| - 1][i] == s[i];
  }

  lemma InitOfAppend<T>(a: seq<T>, b: seq<T>)
    requires b != []
    ensures (a + b)[..|a + b| - 1] == a + b[..|b| - 1]
    ensures (a + b)[|a + b| - 1] == b[|b| - 1]
  {
  }

  /** Copying a record into itself changes nothing. */
  lemma {:induction false} CopyKeysSelf(o: Obj, ks: seq<string>)
    requires o.Valid()
    requires forall i :: 0 <= i < |ks| ==> ks[i] in o.vals
    ensures CopyKeys(o, o, ks) == o
    decreases |ks|
  {
    if ks != [] {
      assert o.vals[ks[0] := o.vals[ks[0]]] == o.vals;
      assert o.Put(ks[0], o.Get(ks[0])) == o;
      CopyKeysSelf(o, ks[1..]);
    }
  }

  /** An iteration whose source is the target itself leaves the heap as it was. */
  lemma StepSelfIsNoop(h: Heap, t: nat)
    requires WfHeap(h) && t in h
    ensures StepSource(h, t, Ref(t)) == h
  {
    assert OwnView(h, Ref(t)) == h[t];
    CopyKeysSelf(h[t], h[t].keys);
    assert Assign(h[t], h[t]) == h[t];
  }

  /** A source that is the target itself contributes nothing, wherever it appears. */
  lemma MixinSelfSourceIsSkipped(h: Heap, t: nat, a: seq<Value>, b: seq<Value>)
    requires WfHeap(h) && t in h && AllClosed(h, a + b)
    ensures AllClosed(h, a + [Ref(t)] + b)
    ensures MixinInto(h, t, a + [Ref(t)] + b) == MixinInto(h, t, a + b)
  {
    AllClosedSplit(h, a, b);
    AllClosedInsert(h, a, Ref(t), b);
    MixinIntoAppend(h, t, a, b);
    MixinIntoAppend(h, t, a + [Ref(t)], b);
    MixinIntoSelfLast(h, t, a);
  }

  /** The same, for a self-source that comes last. */
  lemma MixinIntoSelfLast(h: Heap, t: nat, a: seq<Value>)
    requires WfHeap(h) && t in h && AllClosed(h, a)
    ensures AllClosed(h, a + [Ref(t)])
    ensures MixinInto(h, t, a + [Ref(t)]) == MixinInto(h, t, a)
  {
    AllClosedInsert(h, a, Ref(t), []);
    assert a + [Ref(t)] + [] == a + [Ref(t)];
    InitOfAppend(a, [Ref(t)]);
    StepSelfIsNoop(MixinInto(h, t, a), t);
  }

  lemma AllClosedInsert(h: Heap, a: seq<Value>, v: Value, b: seq<Value>)
    requires AllClosed(h, a) && Closed(h, v) && AllClosed(h, b)
    ensures AllClosed(h, a + [v] + b)
  {
    var s := a + [v] + b;
    forall i | 0 <= i < |s|
      ensures Closed(h, s[i])
    {
      if i < |a| {
        assert s[i] == a[i];
      } else if i > |a| {
        assert s[i] == b[i - |a| - 1];
      }
    }
  }

  /** What each source contributes: its own properties, or nothing when undefined or null. */
  function SourceView(h: Heap, src: Value): (o: Obj)
    requires WfHeap(h) && Closed(h, src)
    ensures o.Valid()
  {
    if IsDefAndNotNull(src) then OwnView(h, src) else Empty
  }

  function Views(h: Heap, srcs: seq<Value>): (vs: seq<Obj>)
    requires WfHeap(h) && AllClosed(h, srcs)
    ensures |vs| == |srcs| && AllValid(vs)
    ensures forall i :: 0 <= i < |srcs| ==> vs[i] == SourceView(h, srcs[i])
  {
    seq(|srcs|, i requires 0 <= i < |srcs| => SourceView(h, srcs[i]))
  }

  lemma ViewsInit(h: Heap, srcs: seq<Value>)
    requires WfHeap(h) && AllClosed(h, srcs) && srcs != []
    ensures AllClosed(h, srcs[..|srcs| - 1])
    ensures Views(h, srcs)[..|srcs| - 1] == Views(h, srcs[..|srcs| - 1])
    ensures Views(h, srcs)[|srcs| - 1] == SourceView(h, srcs[|srcs| - 1])
  {
    AllClosedInit(h, srcs);
  }

  lemma NoAliasInit(t: nat, srcs: seq<Value>)
    requires NoAlias(t, srcs) && srcs != []
    ensures NoAlias(t, srcs[..|srcs| - 1]) && srcs[|srcs| - 1] != Ref(t)
  {
    assert forall i :: 0 <= i < |srcs| - 1 ==> srcs[..|srcs| - 1][i] == srcs[i];
  }

  /** No source is the target record itself. */
  predicate NoAlias(t: nat, srcs: seq<Value>) {
    forall i :: 0 <= i < |srcs| ==> srcs[i] != Ref(t)
  }

  /**
    When no source is the target, the heap-level loop leaves in the target
    exactly the record-level fold of the sources' own properties.
  */
  lemma {:induction false} MixinIntoIsFold(h: Heap, t: nat, srcs: seq<Value>)
    requires WfHeap(h) && t in h && AllClosed(h, srcs) && NoAlias(t, srcs)
    ensures MixinInto(h, t, srcs)[t] == MixinObjs(h[t], Views(h, srcs))
    decreases |srcs|
  {
    if srcs != [] {
      var init, s := srcs[..|srcs| - 1], srcs[|srcs| - 1];
      AllClosedInit(h, srcs);
      NoAliasInit(t, srcs);
      MixinIntoIsFold(h, t, init);
      var h1 := MixinInto(h, t, init);
      StepSourceIsAssign(h1, t, s);
      SourceViewOutsideTarget(h, h1, t, s);
      ViewsInit(h, srcs);
    }
  }

  /** One step of the heap-level loop assigns the source's view into the target. */
  lemma StepSourceIsAssign(h: Heap, t: nat, src: Value)
    requires WfHeap(h) && t in h && Closed(h, src)
    ensures StepSource(h, t, src)[t] == Assign(h[t], SourceView(h, src))
  {
    if !IsDefAndNotNull(src) {
      assert CopyKeys(h[t], Empty, []) == h[t];
    }
  }

  /** A source other than the target looks the same before and after the target changes. */
  lemma SourceViewOutsideTarget(h: Heap, h': Heap, t: nat, src: Value)
    requires WfHeap(h) && WfHeap(h') && h'.Keys == h.Keys
    requires forall id :: id in h && id != t ==> h'[id] == h[id]
    requires Closed(h, src) && src != Ref(t)
    ensures Closed(h', src)
    ensures SourceView(h', src) == SourceView(h, src)
  {
  }

  /**
    The merge semantics of `mixin` when no source is the target: every key owned
    by some source holds the value of the rightmost source owning it, every
    other key of the target is untouched, and the key set is the target's keys
    together with all sources' own keys. The target's existing keys keep their
    enumeration position.
  */
  lemma MixinLastSourceWins(h: Heap, t: nat, sources: seq<Value>, k: string)
    requires WfHeap(h) && t in h && AllClosed(h, sources) && NoAlias(t, sources)
    ensures Mixin(h, Ref(t), sources).Ok?
    ensures var out := Mixin(h, Ref(t), sources).value.heap[t];
      var vs := Views(h, sources);
      && out.Get(k) == (match LastOwner(vs, k)
                        case Some(j) => vs[j].vals[k]
                        case None => h[t].Get(k))
      && out.vals.Keys == h[t].vals.Keys + UnionKeys(vs)
      && h[t].keys <= out.keys
  {
    var vs := Views(h, sources);
    MixinIntoIsFold(h, t, sources);
    MixinObjsLastWins(h[t], vs, k);
    MixinObjsKeys(h[t], vs);
  }
}

=== FILE: names.dfy ===
/**
  `object.getObjectByName(name, opt_obj)`: splits a dotted name on `.` and
  reads each segment in turn, starting from `opt_obj`, or from the global
  object when `opt_obj` is falsy. The global object is a parameter here.
*/
module Names {
  import opened JsObjects

  /** `s.split(sep)`: the maximal separator-free pieces, including empty ones. */
  function Split(s: string, sep: char): (parts: seq<string>)
    ensures |parts| >= 1
    ensures forall i :: 0 <= i < |parts| ==> sep !in parts[i]
    ensures Join(parts, sep) == s
    decreases |s|
  {
    if s == [] then [[]]
    else
      var rest := Split(s[1..], sep);
      if s[0] == sep then
        var parts := [[]] + rest;
        assert parts[1..] == rest;
        parts
      else
        var parts := [[s[0]] + rest[0]] + rest[1..];
        assert |rest| > 1 ==> parts[1..] == rest[1..];
        assert |rest| > 1 ==> Join(rest, sep) == rest[0] + [sep] + Join(rest[1..], sep);
        assert s == [s[0]] + s[1..];
        parts
  }

  /** `parts.join(sep)` */
  function Join(parts: seq<string>, sep: char): string
    requires |parts| >= 1
    decreases |parts|
  {
    if |parts| == 1 then parts[0] else parts[0] + [sep] + Join(parts[1..], sep)
  }

  /** Splitting a separator-free prefix off keeps it whole as the first piece. */
  lemma {:induction false} SplitPrefix(w: string, t: string, sep: char)
    requires sep !in w
    ensures Split(w + t, sep) == [w + Split(t, sep)[0]] + Split(t, sep)[1..]
    decreases |w|
  {
    var st := Split(t, sep);
    if w == [] {
      assert w + t == t;
      assert w + st[0] == st[0];
      assert st == [st[0]] + st[1..];
    } else {
      assert (w + t)[1..] == w[1..] + t;
      assert (w + t)[0] == w[0];
      SplitPrefix(w[1..], t, sep);
      var rest := Split(w[1..] + t, sep);
      assert rest == [w[1..] + st[0]] + st[1..];
      assert Split(w + t, sep) == [[w[0]] + rest[0]] + rest[1..];
      assert [w[0]] + (w[1..] + st[0]) == w + st[0];
    }
  }

  /** Joining separator-free pieces and splitting again gives the pieces back. */
  lemma {:induction false} SplitJoin(parts: seq<string>, sep: char)
    requires |parts| >= 1
    requires forall i :: 0 <= i < |parts| ==> sep !in parts[i]
    ensures Split(Join(parts, sep), sep) == parts
    decreases |parts|
  {
    if |parts| == 1 {
      SplitPrefix(parts[0], [], sep);
      assert parts[0] + [] == parts[0];
    } else {
      var tail := Join(parts[1..], sep);
      assert Join(parts, sep) == parts[0] + ([sep] + tail);
      SplitPrefix(parts[0], [sep] + tail, sep);
      assert ([sep] + tail)[1..] == tail;
      SplitJoin(parts[1..], sep);
      assert Split([sep] + tail, sep) == [[]] + parts[1..];
      assert parts[0] + [] == parts[0];
      assert parts == [parts[0]] + parts[1..];
    }
  }

  /**
    The `reduce` at the heart of `getObjectByName`: starting from `cur`, read
    each segment of `path` in turn. Reading from undefined or null throws.
  */
  function Resolve(h: Heap, cur: Value, path: seq<string>): (r: Outcome<Value>)
    requires WfHeap(h) && Closed(h, cur)
    ensures r.Ok? ==> Closed(h, r.value)
    decreases |path|
  {
    if path == [] then Ok(cur)
    else
      match Read(h, cur, path[0])
      case Throws(e) => Throws(e)
      case Ok(next) => Resolve(h, next, path[1..])
  }

  /** The root `opt_obj || window`: the given scope when truthy, else the global object. */
  function Scope(optObj: Value, global: Value): (v: Value)
    ensures Truthy(optObj) ==> v == optObj
    ensures !Truthy(optObj) ==> v == global
  {
    if Truthy(optObj) then optObj else global
  }

  /** `object.getObjectByName(name, opt_obj)`, with the global object passed in. */
  function GetObjectByName(h: Heap, name: string, optObj: Value, global: Value): (r: Outcome<Value>)
    requires WfHeap(h) && Closed(h, optObj) && Closed(h, global)
    ensures r.Ok? ==> Closed(h, r.value)
    ensures Truthy(optObj) ==> r == Resolve(h, optObj, Split(name, '.'))
    ensures !Truthy(optObj) ==> r == Resolve(h, global, Split(name, '.'))
  {
    Resolve(h, Scope(optObj, global), Split(name, '.'))
  }

  /** Resolving a path in two parts is resolving the first part, then the second from there. */
  lemma {:induction false} ResolveAppend(h: Heap, cur: Value, p: seq<string>, q: seq<string>)
    requires WfHeap(h) && Closed(h, cur)
    ensures Resolve(h, cur, p + q) ==
      match Resolve(h, cur, p)
      case Throws(e) => Throws(e)
      case Ok(mid) => Resolve(h, mid, q)
    decreases |p|
  {
    if p == [] {
      assert p + q == q;
    } else {
      assert (p + q)[0] == p[0];
      assert (p + q)[1..] == p[1..] + q;
      match Read(h, cur, p[0])
      case Throws(e) =>
        assert Resolve(h, cur, p + q) == Throws(e);
        assert Resolve(h, cur, p) == Throws(e);
      case Ok(next) =>
        assert Resolve(h, cur, p + q) == Resolve(h, next, p[1..] + q);
        assert Resolve(h, cur, p) == Resolve(h, next, p[1..]);
        ResolveAppend(h, next, p[1..], q);
    }
  }

  /** The `reduce` step: resolving one more segment reads it from where the others lead. */
  lemma ResolveSnoc(h: Heap, cur: Value, init: seq<string>, last: string)
    requires WfHeap(h) && Closed(h, cur)
    ensures Resolve(h, cur, init + [last]) ==
      match Resolve(h, cur, init)
      case Throws(e) => Throws(e)
      case Ok(v) => Read(h, v, last)
  {
    ResolveAppend(h, cur, init, [last]);
    match Resolve(h, cur, init)
    case Throws(e) =>
    case Ok(v) => ResolveOne(h, v, last);
  }

  lemma ResolveOne(h: Heap, cur: Value, key: string)
    requires WfHeap(h) && Closed(h, cur)
    ensures Resolve(h, cur, [key]) == Read(h, cur, key)
  {
    assert [key][1..] == [];
  }

  /**
    `getObjectByName` over a dotted name is the lookup of its last segment in
    whatever the other segments lead to; a throw on the way is passed on.
  */
  lemma GetObjectByNameLastSegment(h: Heap, name: string, optObj: Value, global: Value)
    requires WfHeap(h) && Closed(h, optObj) && Closed(h, global)
    ensures var path := Split(name, '.');
      GetObjectByName(h, name, optObj, global) ==
        match Resolve(h, Scope(optObj, global), path[..|path| - 1])
        case Throws(e) => Throws(e)
        case Ok(v) => Read(h, v, path[|path| - 1])
  {
    var path := Split(name, '.');
    assert path == path[..|path| - 1] + [path[|path| - 1]];
    ResolveSnoc(h, Scope(optObj, global), path[..|path| - 1], path[|path| - 1]);
  }

  /** When only the final segment is missing from the record reached, the result is undefined. */
  lemma GetObjectByNameMissingLeaf(h: Heap, name: string, optObj: Value, global: Value, id: nat)
    requires WfHeap(h) && Closed(h, optObj) && Closed(h, global)
    requires var path := Split(name, '.');
      Resolve(h, Scope(optObj, global), path[..|path| - 1]) == Ok(Ref(id))
    requires Split(name, '.')[|Split(name, '.')| - 1] !in h[id].vals
    ensures GetObjectByName(h, name, optObj, global) == Ok(Undefined)
  {
    GetObjectByNameLastSegment(h, name, optObj, global);
  }

  /** The first `i` segments lead to undefined or null, so segment `i` cannot be read. */
  predicate StuckAt(h: Heap, cur: Value, path: seq<string>, i: nat)
    requires WfHeap(h) && Closed(h, cur) && i <= |path|
  {
    var r := Resolve(h, cur, path[..i]);
    r.Ok? && !IsDefAndNotNull(r.value)
  }

  /** Past the first segment, being stuck is being stuck one segment later in the rest. */
  lemma StuckAtShift(h: Heap, cur: Value, path: seq<string>, i: nat)
    requires WfHeap(h) && Closed(h, cur) && IsDefAndNotNull(cur)
    requires 1 <= i <= |path|
    ensures var next := Read(h, cur, path[0]).value;
      StuckAt(h, cur, path, i) <==> StuckAt(h, next, path[1..], i - 1)
  {
    assert path[..i][0] == path[0];
    assert path[..i][1..] == path[1..][..i - 1];
  }

  /**
    Resolution throws exactly when some non-final prefix of the path resolves
    to undefined or null: the next segment is then read from it.
  */
  lemma {:induction false} ResolveThrowsIff(h: Heap, cur: Value, path: seq<string>)
    requires WfHeap(h) && Closed(h, cur)
    ensures Resolve(h, cur, path).Throws? <==>
      exists i :: 0 <= i < |path| && StuckAt(h, cur, path, i)
    decreases |path|
  {
    if path != [] {
      assert path[..0] == [];
      if !IsDefAndNotNull(cur) {
        assert StuckAt(h, cur, path, 0);
      } else {
        var next := Read(h, cur, path[0]).value;
        ResolveThrowsIff(h, next, path[1..]);
        if Resolve(h, cur, path).Throws? {
          var j :| 0 <= j < |path| - 1 && StuckAt(h, next, path[1..], j);
          StuckAtShift(h, cur, path, j + 1);
        }
        if exists i :: 0 <= i < |path| && StuckAt(h, cur, path, i) {
          var i :| 0 <= i < |path| && StuckAt(h, cur, path, i);
          assert i != 0;
          StuckAtShift(h, cur, path, i);
        }
      }
    }
  }

  /** `{a: {b: {c: 42}}}`: record `p` refers to record `q`, which refers to record `r`. */
  predicate Nested(h: Heap, p: nat, q: nat, r: nat) {
    && WfHeap(h) && p in h && q in h && r in h
    && h[p] == Obj(["a"], map["a" := Ref(q)])
    && h[q] == Obj(["b"], map["b" := Ref(r)])
    && h[r] == Obj(["c"], map["c" := Num(42)])
  }

  /** Splitting the three-segment name `x.y.z`. */
  lemma SplitThree(x: string, y: string, z: string)
    requires '.' !in x && '.' !in y && '.' !in z
    ensures Split(x + "." + y + "." + z, '.') == [x, y, z]
  {
    var parts := [x, y, z];
    assert parts[1..] == [y, z] && parts[1..][1..] == [z];
    assert Join([z], '.') == z;
    assert Join([y, z], '.') == y + "." + z;
    assert Join(parts, '.') == x + "." + (y + "." + z);
    assert x + "." + (y + "." + z) == x + "." + y + "." + z;
    SplitJoin(parts, '.');
  }

  lemma SplitSamples()
    ensures Split("a.b.c", '.') == ["a", "b", "c"]
    ensures Split("a.b.x", '.') == ["a", "b", "x"]
    ensures Split("a.x.c", '.') == ["a", "x", "c"]
  {
    SplitThree("a", "b", "c");
    assert "a" + "." + "b" + "." + "c" == "a.b.c";
    SplitThree("a", "b", "x");
    assert "a" + "." + "b" + "." + "x" == "a.b.x";
    SplitThree("a", "x", "c");
    assert "a" + "." + "x" + "." + "c" == "a.x.c";
  }

  /** `getObjectByName` throws exactly when some proper prefix of the split name leads to undefined or null. */
  lemma GetObjectByNameThrowsIff(h: Heap, name: string, optObj: Value, global: Value)
    requires WfHeap(h) && Closed(h, optObj) && Closed(h, global)
    ensures GetObjectByName(h, name, optObj, global).Throws? <==>
      exists i :: 0 <= i < |Split(name, '.')| && StuckAt(h, Scope(optObj, global), Split(name, '.'), i)
  {
    var root, path := Scope(optObj, global), Split(name, '.');
    ResolveThrowsIff(h, root, path);
    assert Resolve(h, root, path).Throws? <==> exists i :: 0 <= i < |path| && StuckAt(h, root, path, i);
    assert GetObjectByName(h, name, optObj, global) == Resolve(h, root, path);
    if Resolve(h, root, path).Throws? {
      var i :| 0 <= i < |path| && StuckAt(h, root, path, i);
      assert StuckAt(h, Scope(optObj, global), Split(name, '.'), i);
    }
  }

  /** One segment read from a record. */
  lemma ResolveStep(h: Heap, cur: Value, path: seq<string>)
    requires WfHeap(h) && Closed(h, cur) && cur.Ref? && path != []
    ensures Resolve(h, cur, path) == Resolve(h, h[cur.id].Get(path[0]), path[1..])
  {
  }

  /** The full path reaches the leaf. */
  lemma ResolveFound(h: Heap, p: nat, q: nat, r: nat)
    requires Nested(h, p, q, r)
    ensures Resolve(h, Ref(p), ["a", "b", "c"]) == Ok(Num(42))
  {
    ResolveStep(h, Ref(p), ["a", "b", "c"]);
    ResolveStep(h, Ref(q), ["b", "c"]);
    ResolveStep(h, Ref(r), ["c"]);
  }

  /** A missing final segment reads as undefined. */
  lemma ResolveMissingLeaf(h: Heap, p: nat, q: nat, r: nat)
    requires Nested(h, p, q, r)
    ensures Resolve(h, Ref(p), ["a", "b", "x"]) == Ok(Undefined)
  {
    ResolveStep(h, Ref(p), ["a", "b", "x"]);
    ResolveStep(h, Ref(q), ["b", "x"]);
    ResolveStep(h, Ref(r), ["x"]);
  }

  /** A missing middle segment reads as undefined, and the segment after it throws. */
  lemma ResolveMissingMiddle(h: Heap, p: nat, q: nat, r: nat)
    requires Nested(h, p, q, r)
    ensures Resolve(h, Ref(p), ["a", "x"]) == Ok(Undefined)
    ensures Resolve(h, Ref(p), ["a", "x", "c"]) == Throws(TypeError)
  {
    ResolveStep(h, Ref(p), ["a", "x"]);
    ResolveStep(h, Ref(q), ["x"]);
    ResolveStep(h, Ref(p), ["a", "x", "c"]);
    ResolveStep(h, Ref(q), ["x", "c"]);
  }

  /**
    Worked cases: a full path yields the leaf, a missing final segment yields
    undefined, and a missing intermediate segment throws.
  */
  lemma GetObjectByNameSamples(h: Heap, p: nat, q: nat, r: nat, global: Value)
    requires Nested(h, p, q, r) && Closed(h, global)
    ensures GetObjectByName(h, "a.b.c", Ref(p), global) == Ok(Num(42))
    ensures GetObjectByName(h, "a.b.x", Ref(p), global) == Ok(Undefined)
    ensures GetObjectByName(h, "a.x.c", Ref(p), global) == Throws(TypeError)
  {
    SplitSamples();
    ResolveFound(h, p, q, r);
    ResolveMissingLeaf(h, p, q, r);
    ResolveMissingMiddle(h, p, q, r);
  }

  /**
    The lookup the documentation comment promises: the value reached, or
    undefined as soon as a segment is missing, never an exception.
  */
  function ResolveOrUndefined(h: Heap, cur: Value, path: seq<string>): (v: Value)
    requires WfHeap(h) && Closed(h, cur)
    ensures Closed(h, v)
    decreases |path|
  {
    if path == [] then cur
    else if !IsDefAndNotNull(cur) then Undefined
    else ResolveOrUndefined(h, OwnView(h, cur).Get(path[0]), path[1..])
  }

  /** `getObjectByName` as its documentation comment describes it. */
  function LookupByName(h: Heap, name: string, optObj: Value, global: Value): (v: Value)
    requires WfHeap(h) && Closed(h, optObj) && Closed(h, global)
    ensures Closed(h, v)
  {
    ResolveOrUndefined(h, Scope(optObj, global), Split(name, '.'))
  }

  /**
    The corrected lookup agrees with the code wherever the code returns, and
    yields undefined exactly where the code throws.
  */
  lemma {:induction false} ResolveOrUndefinedAgrees(h: Heap, cur: Value, path: seq<string>)
    requires WfHeap(h) && Closed(h, cur)
    ensures ResolveOrUndefined(h, cur, path) ==
      match Resolve(h, cur, path)
      case Ok(v) => v
      case Throws(_) => Undefined
    decreases |path|
  {
    if path != [] && IsDefAndNotNull(cur) {
      ResolveOrUndefinedAgrees(h, OwnView(h, cur).Get(path[0]), path[1..]);
    }
  }

  /**
    The promise of the documentation comment, proved of the corrected lookup:
    when some prefix of the path leads to undefined, the result is undefined.
  */
  lemma LookupMissingIsUndefined(h: Heap, name: string, optObj: Value, global: Value, i: nat)
    requires WfHeap(h) && Closed(h, optObj) && Closed(h, global)
    requires i <= |Split(name, '.')|
    requires Resolve(h, Scope(optObj, global), Split(name, '.')[..i]) == Ok(Undefined)
    ensures LookupByName(h, name, optObj, global) == Undefined
  {
    var root, path := Scope(optObj, global), Split(name, '.');
    ResolveOrUndefinedAgrees(h, root, path);
    if i < |path| {
      assert StuckAt(h, root, path, i);
      ResolveThrowsIff(h, root, path);
    } else {
      assert path[..i] == path;
    }
  }

  /**
    The documented promise fails for the code as written: on `{a: {b: {c: 42}}}`
    the name `a.x.c` has a missing segment, yet the lookup throws instead of
    returning undefined; the corrected lookup returns undefined.
  */
  lemma MissingIntermediateThrows(h: Heap, p: nat, q: nat, r: nat, global: Value)
    requires Nested(h, p, q, r) && Closed(h, global)
    ensures Resolve(h, Ref(p), ["a", "x"]) == Ok(Undefined)
    ensures Split("a.x.c", '.')[..2] == ["a", "x"]
    ensures GetObjectByName(h, "a.x.c", Ref(p), global).Throws?
    ensures LookupByName(h, "a.x.c", Ref(p), global) == Undefined
  {
    var path := ["a", "x", "c"];
    SplitThree("a", "x", "c");
    assert "a" + "." + "x" + "." + "c" == "a.x.c";
    ResolveMissingMiddle(h, p, q, r);
    assert path[..2] == ["a", "x"];
    ResolveOrUndefinedAgrees(h, Ref(p), path);
    GetFromRecord(h, "a.x.c", p, global, path);
    LookupFromRecord(h, "a.x.c", p, global, path);
  }

  /** From a record scope, the lookup follows the split name. */
  lemma GetFromRecord(h: Heap, name: string, p: nat, global: Value, path: seq<string>)
    requires WfHeap(h) && p in h && Closed(h, global) && Split(name, '.') == path
    ensures GetObjectByName(h, name, Ref(p), global) == Resolve(h, Ref(p), path)
  {
  }

  /** From a record scope, the corrected lookup follows the split name. */
  lemma LookupFromRecord(h: Heap, name: string, p: nat, global: Value, path: seq<string>)
    requires WfHeap(h) && p in h && Closed(h, global) && Split(name, '.') == path
    ensures LookupByName(h, name, Ref(p), global) == ResolveOrUndefined(h, Ref(p), path)
  {
  }
}

=== FILE: shallow.dfy ===
/**
  `object.shallowEqual(obj1, obj2)`: true for the same value; otherwise the two
  own key lists must have the same length and every own key of `obj1` must
  read the same (`===`) in `obj1` and `obj2`. Keys of `obj2` are only counted,
  never looked up, so the relation is not symmetric.
*/
module Shallow {
  import opened JsObjects

  /** The comparison loop over `ks`: false at the first key whose values differ. */
  function AllMatch(o1: Obj, o2: Obj, ks: seq<string>): (b: bool)
    ensures b <==> forall i :: 0 <= i < |ks| ==> o1.Get(ks[i]) == o2.Get(ks[i])
    decreases |ks|
  {
    if ks == [] then true
    else if o1.Get(ks[0]) != o2.Get(ks[0]) then false
    else
      var b := AllMatch(o1, o2, ks[1..]);
      assert forall i :: 1 <= i < |ks| ==> ks[i] == ks[1..][i - 1];
      b
  }

  /** Every own key of `o1` reads the same in `o2`, where a missing key reads as undefined. */
  predicate AgreesOn(o1: Obj, o2: Obj) {
    forall k :: k in o1.vals ==> o1.vals[k] == o2.Get(k)
  }

  /**
    `object.shallowEqual(obj1, obj2)`. `Object.keys` throws on undefined and
    null, which matters only when the two arguments differ.
  */
  function ShallowEqual(h: Heap, a: Value, b: Value): (r: Outcome<bool>)
    requires WfHeap(h) && Closed(h, a) && Closed(h, b)
    ensures a == b ==> r == Ok(true)
    ensures a != b && (!IsDefAndNotNull(a) || !IsDefAndNotNull(b)) ==> r == Throws(TypeError)
    ensures a != b && IsDefAndNotNull(a) && IsDefAndNotNull(b) ==>
      var o1, o2 := OwnView(h, a), OwnView(h, b);
      r == Ok(|o1.keys| == |o2.keys| && AgreesOn(o1, o2))
  {
    if a == b then Ok(true)
    else if !IsDefAndNotNull(a) || !IsDefAndNotNull(b) then Throws(TypeError)
    else
      var o1, o2 := OwnView(h, a), OwnView(h, b);
      if |o1.keys| != |o2.keys| then Ok(false)
      else
        var same := AllMatch(o1, o2, o1.keys);
        assert same <==> AgreesOn(o1, o2) by {
          if same {
            forall k | k in o1.vals
              ensures o1.vals[k] == o2.Get(k)
            {
              assert k in o1.keys;
            }
          }
        }
        Ok(same)
  }

  /** `object.shallowEqual`, written as `object.shallowEqual` writes it, with its early exit. */
  method ShallowEqualLoop(h: Heap, a: Value, b: Value) returns (r: Outcome<bool>)
    requires WfHeap(h) && Closed(h, a) && Closed(h, b)
    ensures a == b ==> r == Ok(true)
    ensures a != b && (!IsDefAndNotNull(a) || !IsDefAndNotNull(b)) ==> r == Throws(TypeError)
    ensures a != b && IsDefAndNotNull(a) && IsDefAndNotNull(b) ==>
      var o1, o2 := OwnView(h, a), OwnView(h, b);
      r == Ok(|o1.keys| == |o2.keys| && AgreesOn(o1, o2))
  {
    if a == b {
      return Ok(true);
    }
    if !IsDefAndNotNull(a) || !IsDefAndNotNull(b) {
      return Throws(TypeError);
    }
    var o1, o2 := OwnView(h, a), OwnView(h, b);
    if |o1.keys| != |o2.keys| {
      return Ok(false);
    }
    var i := 0;
    while i < |o1.keys|
      invariant 0 <= i <= |o1.keys|
      invariant forall j :: 0 <= j < i ==> o1.Get(o1.keys[j]) == o2.Get(o1.keys[j])
    {
      if o1.Get(o1.keys[i]) != o2.Get(o1.keys[i]) {
        assert !AgreesOn(o1, o2) by {
          assert o1.keys[i] in o1.vals;
        }
        return Ok(false);
      }
      i := i + 1;
    }
    forall k | k in o1.vals
      ensures o1.vals[k] == o2.Get(k)
    {
      assert k in o1.keys;
    }
    return Ok(true);
  }

  /** No own property of the record is undefined. */
  predicate NoUndefined(o: Obj) {
    forall k :: k in o.vals ==> o.vals[k] != Undefined
  }

  /**
    When no value of `obj1` is undefined, a true result means the two records
    own exactly the same keys.
  */
  lemma ShallowEqualSameKeys(h: Heap, a: Value, b: Value)
    requires WfHeap(h) && Closed(h, a) && Closed(h, b)
    requires IsDefAndNotNull(a) && IsDefAndNotNull(b)
    requires NoUndefined(OwnView(h, a))
    requires ShallowEqual(h, a, b) == Ok(true)
    ensures OwnView(h, a).vals.Keys == OwnView(h, b).vals.Keys
  {
    if a != b {
      AgreesSameKeys(OwnView(h, a), OwnView(h, b));
    }
  }

  /** Agreement of a record without undefined values with one of the same size fixes the keys. */
  lemma AgreesSameKeys(o1: Obj, o2: Obj)
    requires o1.Valid() && o2.Valid() && NoUndefined(o1)
    requires |o1.keys| == |o2.keys| && AgreesOn(o1, o2)
    ensures o1.vals.Keys == o2.vals.Keys
  {
    assert o1.vals.Keys <= o2.vals.Keys by {
      forall k | k in o1.vals
        ensures k in o2.vals
      {
        assert o2.Get(k) == o1.vals[k] != Undefined;
      }
    }
    KeyCount(o1.keys, o1.vals.Keys);
    KeyCount(o2.keys, o2.vals.Keys);
    SubsetOfSameSize(o1.vals.Keys, o2.vals.Keys);
  }

  lemma SubsetOfSameSize(s: set<string>, t: set<string>)
    requires s <= t && |s| == |t|
    ensures s == t
  {
    if s != t {
      var x :| x in t && x !in s;
      SubsetSize(s, t - {x});
    }
  }

  lemma {:induction false} SubsetSize(s: set<string>, t: set<string>)
    requires s <= t
    ensures |s| <= |t|
    decreases |s|
  {
    if s != {} {
      var y :| y in s;
      SubsetSize(s - {y}, t - {y});
    }
  }

  /** Without undefined values on either side, the comparison is symmetric. */
  lemma ShallowEqualSymmetric(h: Heap, a: Value, b: Value)
    requires WfHeap(h) && Closed(h, a) && Closed(h, b)
    requires IsDefAndNotNull(a) && IsDefAndNotNull(b)
    requires NoUndefined(OwnView(h, a)) && NoUndefined(OwnView(h, b))
    ensures ShallowEqual(h, a, b) == ShallowEqual(h, b, a)
  {
    if a != b {
      AgreesSymmetric(OwnView(h, a), OwnView(h, b));
    }
  }

  /** For records without undefined values, "same size and agreeing" is symmetric. */
  lemma AgreesSymmetric(o1: Obj, o2: Obj)
    requires o1.Valid() && o2.Valid() && NoUndefined(o1) && NoUndefined(o2)
    ensures (|o1.keys| == |o2.keys| && AgreesOn(o1, o2)) <==> (|o2.keys| == |o1.keys| && AgreesOn(o2, o1))
  {
    if |o1.keys| != |o2.keys| {
    } else if AgreesOn(o1, o2) {
      AgreesSameKeys(o1, o2);
      AgreesOnSameKeys(o1, o2);
    } else if AgreesOn(o2, o1) {
      AgreesSameKeys(o2, o1);
      AgreesOnSameKeys(o2, o1);
    }
  }

  /** On records owning the same keys, agreement holds in both directions. */
  lemma AgreesOnSameKeys(o1: Obj, o2: Obj)
    requires o1.vals.Keys == o2.vals.Keys && AgreesOn(o1, o2)
    ensures AgreesOn(o2, o1)
  {
    forall k | k in o2.vals
      ensures o2.vals[k] == o1.Get(k)
    {
      assert o1.vals[k] == o2.Get(k);
    }
  }

  /**
    `{a: undefined}` against `{b: 1}` is true, because `b` is never looked up,
    while the reverse order is false.
  */
  lemma ShallowEqualAsymmetric(h: Heap, p: nat, q: nat)
    requires WfHeap(h) && p in h && q in h
    requires h[p] == Obj(["a"], map["a" := Undefined])
    requires h[q] == Obj(["b"], map["b" := Num(1)])
    ensures ShallowEqual(h, Ref(p), Ref(q)) == Ok(true)
    ensures ShallowEqual(h, Ref(q), Ref(p)) == Ok(false)
  {
    Singleton("a", Undefined);
    Singleton("b", Num(1));
    assert AgreesOn(h[p], h[q]);
    assert !AgreesOn(h[q], h[p]) by {
      assert h[q].vals["b"] != h[p].Get("b");
    }
  }

  /**
    Nested records compare by identity: `{a: r}` and `{a: r'}` differ when `r`
    and `r'` are distinct records, even records with the same contents.
  */
  lemma ShallowEqualByIdentity(h: Heap, p: nat, q: nat, x: nat, y: nat)
    requires WfHeap(h) && p in h && q in h && x in h && y in h
    requires x != y && h[x] == h[y]
    requires h[p] == Obj(["a"], map["a" := Ref(x)])
    requires h[q] == Obj(["a"], map["a" := Ref(y)])
    ensures ShallowEqual(h, Ref(p), Ref(q)) == Ok(false)
  {
    Singleton("a", Ref(x));
    Singleton("a", Ref(y));
    assert !AgreesOn(h[p], h[q]) by {
      assert h[p].vals["a"] != h[q].Get("a");
    }
  }
}
